=== FILE: README.md ===
# packgen: wire lengths and generated decoders

packgen reads a C header of `typedef struct` declarations. For each composite
`X` it prints two things:

- a constant `len_X`, the number of bytes `X` occupies on the wire;
- a decoder `unmarshal_X(t, data, n)`. It checks once that `n >= len_X` and
  returns -1 otherwise. It is then meant to read every field in declaration
  order through a cursor `p`:
  - one-byte fields are copied;
  - 2-, 4- and 8-byte fields are assembled under a little- or big-endian
    byte order;
  - arrays are read slot by slot in a fixed-count loop;
  - nested composites are handed to their own decoder.

  Finally it is meant to return the number of bytes consumed.

The printed decoder falls short of this in three places, listed under
"## Findings":
- its 2- and 4-byte reads index from `data` and advance `data` rather than `p`;
- it returns `p-data`, which is then not the number of bytes consumed;
- it has no 8-byte read.

The model states the decoder as intended for every composite. It states the
decoder as written for composites whose fields are 1-, 2- and 4-byte
primitives or arrays of them.

This project models what those printed definitions mean, not the text
printing itself.

- `Schema` holds the type model.
  - Unsigned primitives of width 1, 2, 4 and 8.
  - References to composites, and fixed arrays.
  - The registry of composites in declaration order. A composite may only
    use composites declared before it, which the emitted C needs anyway.
  - Resolution of type names as written in the header.
- `Lengths` holds the wire length of each type.
  - It defines the emitted `len_X` initialiser as an expression.
  - It proves that evaluating these initialisers in declaration order gives
    every composite its length.
- `ByteOrder` holds the little- and big-endian reads.
  - It includes the emitted shift-and-or expressions.
  - It includes the inverse writes.
- `Decoder` holds the decoders as intended. `DecodeStruct` is `unmarshal_X`
  with every read at the cursor `p` and a 64-bit read added.
  - The field, slot and nested decoders carry the precondition that enough
    bytes are present.
  - Under that precondition they are proved never to fail, so one upfront
    check suffices.
- `Positions` says where each field and each array slot is read from. It
  also shows that a nested decoder is always handed enough bytes.
- `Values` holds decoded instances and a conforming encoder. The encoder is
  the partner against which the decoders' round trips are stated.
- `RoundTrip` proves three things:
  - decode after encode is the identity;
  - encode after decode restores the consumed bytes;
  - bytes past `len_X` never influence the result.
- `AsWritten` models the printed decoder exactly as written, with the
  defects described under Findings, for composites of 1-, 2- and 4-byte
  fields and arrays of them.
- `Examples` holds worked schemas.

The byte order is a parameter of every read. The available length `n` is the
length of the byte sequence handed to a decoder. After each field, `n`
shrinks with the bytes consumed.

## Model

| member | source | states |
|---|---|---|
| Schema.PrimOf | gen.py:27-44 | `uint8_t`, `int8_t` and `char` are the one-byte primitive, `uint16_t`, `uint32_t` and `uint64_t` the 2-, 4- and 8-byte ones, each if and only if; every other name is taken for a composite |
| Schema.ResolveType | gen.py:80-99 | a field type resolves exactly when its name is a primitive or an earlier composite, and the result denotes that primitive or that composite, wrapped in the array declarators; otherwise the error names the composite and the type name inside the declarators |
| Schema.ResolveFields | gen.py:15-16 | a field list resolves exactly when every field does; names and order are kept, and no field refers past the known composites; otherwise the error is that of the first field that does not resolve |
| Schema.Resolve | gen.py:43-44 | the registry is built exactly when every field of every declaration names a primitive or a composite declared earlier; then it is well formed (acyclic), keeps the order and denotes each declaration; otherwise the error names the first declaration that does not resolve and the type name of its first unresolvable field |
| Lengths.Length | gen.py:21-44 | the reference wire length: a primitive's width, `dim` times an array's element, a composite's fields; a definition without a contract, which `LengthTable` and the round trips relate to the printed constants and the wire form |
| Lengths.FieldsLength | gen.py:13-19 | the reference length of a field list, the sum of its fields' lengths; a definition without a contract, related to the printed initialiser by `EmitFieldsMeansLength` |
| Lengths.FieldTerm | gen.py:21-44 | the set of `len_Y` constants the printed term of a field refers to is exactly the set of composites its type mentions, so the largest one referred to is the one the type mentions |
| Lengths.EmitFields | gen.py:13-19 | a `len_Y` constant occurs in the printed initialiser exactly when some field's type mentions composite `Y`, so the initialiser only needs constants printed before it |
| Lengths.FieldsLengthAppend | gen.py:15-16 | adding one more field to a composite adds exactly that field's length |
| Lengths.FieldTermMeansLength | gen.py:21-44 | each emitted term (`+1`, `+2`, `+4`, `+8`, `+len_Y`, `+ dim *(0 ...)`) evaluates to the length of its field type once the earlier constants hold their lengths |
| Lengths.EmitFieldsMeansLength | gen.py:13-19 | `0` followed by the fields' terms evaluates to the sum of the fields' lengths in declaration order |
| Lengths.EmittedLengthIsLength | gen.py:8-19 | the initialiser of `len_X` for the composite at position j refers only to constants of positions below j and evaluates to the composite's wire length |
| Lengths.LengthTable | gen.py:8-44 | evaluating the emitted constants in declaration order yields, for every composite, its wire length |
| Lengths.DegenerateLengths | gen.py:13-25 | a composite without fields has length 0, and an array of dimension 0 contributes 0 bytes |
| ByteOrder.BigIsReversedLittle | gen.py:105-115 | a big-endian read of a byte run equals the little-endian read of the reversed run |
| ByteOrder.ReadUIntBound | gen.py:105-115 | a width-w read, under either order, is below 256^w |
| ByteOrder.SingleByteIgnoresOrder | gen.py:102-103 | a one-byte run reads as the byte itself under either order |
| ByteOrder.ReadOfWrite | gen.py:105-115 | writing a value below 256^w in w bytes and reading it back under the same order gives the value |
| ByteOrder.WriteOfRead | gen.py:105-115 | reading a byte run and writing the value back under the same order gives the run |
| ByteOrder.EmittedRead16 | gen.py:105-109 | the printed 16-bit expression yields a value below 2^16, so storing it in the `uint16_t` field loses nothing |
| ByteOrder.EmittedRead32 | gen.py:111-115 | the printed 32-bit expression yields a value below 2^32, so storing it in the `uint32_t` field loses nothing |
| ByteOrder.EmittedRead16Agrees | gen.py:105-109 | the printed 16-bit shift-and-or expressions compute the first byte as least significant (little) or most significant (big) |
| ByteOrder.EmittedRead32Agrees | gen.py:111-115 | the printed 32-bit shift-and-or expressions compute the 4-byte little- or big-endian value |
| Decoder.ReadPrim | gen.py:86-93 | a primitive read yields a value below 256^width |
| Decoder.ReadPrimAgrees | gen.py:86-93 | every primitive read, the byte copy included, is the width-w read under the byte order |
| Decoder.OneByteFieldIgnoresOrder | gen.py:102-103 | a one-byte field is copied unchanged whatever the byte order |
| Decoder.ReadPrimIsEmitted | gen.py:105-115 | on any buffer of at least 2 bytes the 16-bit read is the printed expression applied to the field's bytes, and on any buffer of at least 4 bytes so is the 32-bit read |
| Decoder.DecodeStruct | gen.py:57-70 | `unmarshal_X` fails if and only if fewer than `len_X` bytes are available, a decision that depends on no byte; on success it consumes exactly `len_X` bytes |
| Decoder.DecodeType | gen.py:80-100 | given enough bytes, one field's statements cannot fail and consume exactly the field's length |
| Decoder.DecodeItems | gen.py:72-78 | the array loop reads exactly `dim` elements and consumes `dim` times the element length |
| Decoder.DecodeFields | gen.py:67-68 | the field statements yield one value per field and consume the sum of the field lengths |
| Positions.FieldOffset | gen.py:67-68 | field k starts where the fields before it end: its offset, its own length and the lengths of the fields after it add up to the composite's length |
| Positions.FieldAt | gen.py:67-68 | field k is read from the bytes at its offset, as if decoded alone |
| Positions.NestedDecoderSucceeds | gen.py:98-100 | after the upfront check, a nested composite's decoder is handed enough bytes, so its unchecked `ret` is its length, never -1, and its value is the field's |
| Positions.SlotAt | gen.py:72-84 | slot k of an array lies within the buffer and is read from the k-th element-sized run of bytes |
| RoundTrip.DecodeOfEncode | gen.py:80-115 | decoding the wire form of an instance, whatever follows it, yields the instance and consumes the type's length |
| RoundTrip.EncodeOfDecode | gen.py:80-115 | a decoded value is an instance of its type, and its wire form is exactly the bytes consumed |
| RoundTrip.DecodeStructOfEncode | gen.py:57-70 | `unmarshal_X` on the wire form of an instance, whatever follows it, yields the instance and returns `len_X` |
| RoundTrip.EncodeOfDecodeStruct | gen.py:57-70 | what `unmarshal_X` yields is an instance of `X`, and its wire form is the consumed prefix |
| RoundTrip.DecodeIgnoresTrailingBytes | gen.py:65-70 | two buffers that agree on their first `len_X` bytes decode to the same result: bytes past `len_X` are never read |
| AsWritten.DecoderPrimOf | gen.py:86-97 | the decoder's dispatch gives no primitive for `uint64_t` and agrees with the length calculator's table on every other name |
| AsWritten.RunReads | gen.py:102-115 | when neither pointer can pass the end of the buffer, every printed read happens, one value is stored per read, `p` advances one byte per one-byte read and `data` advances by the widths of the 2- and 4-byte reads |
| AsWritten.ReadsCoverFields | gen.py:67-115 | the printed reads of a composite of 1-, 2- and 4-byte fields and arrays of them contain no 8-byte read, and the advances of `p` and `data` add up to `len_X` |
| AsWritten.UnmarshalAsWritten | gen.py:57-115 | the printed `unmarshal_X` as written returns -1 storing nothing on a short buffer; otherwise every read stays in the buffer, it stores one value per read and returns the one-byte reads minus the bytes of the wider reads, which is `len_X` exactly when it performs no 2- or 4-byte read |
| AsWritten.Uint64NotDecoded | gen.py:86-97 | the decoder's dispatch has no `uint64_t` case while the length calculator counts 8 bytes for it; the two agree on every other name |
| AsWritten.HeaderMisread | gen.py:102-115 | on a 5-byte header the decoder as written reads `flags` and `payload` from the wrong bytes and returns 1 instead of the header length 5 |
| AsWritten.HeaderDecodes | gen.py:57-70 | the corrected decoder reads version 1, flags 255 and payload 10, 11 from `01 00 FF 0A 0B` and consumes 5 bytes |
| AsWritten.WideFieldReturnsNegative | gen.py:64-70 | for a composite holding one `uint16_t`, the decoder as written returns -2 on every long-enough buffer; the corrected one consumes 2 |
| Examples.EndiannessExample | gen.py:111-115 | `01 00 00 00` reads as 1 little-endian and 16777216 big-endian |
| Examples.ArrayExample | gen.py:72-78 | `uint8_t a[4]` puts byte k in slot k; `AA BB CC DD` gives 170, 187, 204, 221 |
| Examples.NestingExample | gen.py:98-100 | a composite holding one composite of one `uint16_t` has length 2, and `34 12` little-endian decodes to 0x1234 inside it |
| Examples.ResolveExample | gen.py:43-44 | a composite using an earlier one resolves to the registry that refers to it by index |
| Examples.ForwardReferenceRefused | gen.py:43-44 | a composite using one declared after it is refused, naming the composite and the unknown type |

## Left out

- Parsing the header is left out: pycparser, the preprocessor run and its include paths (gen.py:1, 121-122). This is a foreign library plus I/O. The model starts from the declarations as a list of names and field types.
- Printing is left out: the C text, the `#include` preamble, the driver (gen.py:118-135) and the filter that keeps only declarations of the named file (gen.py:9-10, 58-59). The model gives the meaning of the printed definitions instead.
- The byte order is a parameter. The printed reads consult the module-level `ENDIAN` rather than the generator's own `endian` setting (gen.py:106, 112 against 55). Both are `"little"` in the driver.
- `int8_t` and `char` are read as raw unsigned bytes, as the printed copy does. Their signedness in C is not modelled.
- C arithmetic is not modelled: integer promotion, the undefined `data[3]<<24` for a byte of 128 or more in a 32-bit `int`, and the `size_t` return type that turns -1 into its largest value. Reads are exact unsigned integers, and failure is `TooShort`.
- Arrays of arrays are decoded recursively. The generator keeps a single `array` flag and a single index `i` (gen.py:73-77, 83-84), so its nested loops reuse `i` and index only once. The model gives the evidently intended element-by-element reading.
- Partial writes to the output structure on failure cannot occur: the only failure is the upfront check, before any field is written.
- Only `typedef struct` declarations are modelled. Both generators read `node.type.type.decls` of every typedef in the header (gen.py:15, 67), so any other typedef makes them fail: a scalar alias such as `typedef uint8_t u8;`, an array alias or an enum. By then the length calculator has already printed `const size_t len_u8 = 0` (gen.py:13). A `typedef union` would be laid out as if it were a struct.
- Only fields whose type is a type name, or a fixed array of one with a literal dimension, are modelled. A field typed `struct T`, `union U` or `enum E`, or an inline `struct { … }`, has no type name list, so both generators fail at `node.type.names[-1]` (gen.py:28, 81). An array with a missing or computed dimension (`a[]`, `a[2*3]`, an enum constant) has no `dim.value`, so they fail at gen.py:22 and 74. A pointer member such as `uint16_t *q;` has no visitor of its own, so both generators size and read it as its pointee; a bit-field such as `uint8_t f:3;` is counted and read as a whole byte. The model's field types cannot express any of these.
- Cyclic or forward references are reported as an unknown type name. The emitted C would not compile for them.
- AsWritten.UnmarshalAsWritten: covers only composites whose fields are 1-, 2- and 4-byte primitives or arrays of them. A `uint64_t` field makes the printed code call an undefined function, a nested composite would need the callee's `p-data` as its `ret`, and arrays of arrays reuse one index. The corrected decoder covers all of these.
- Lengths.Length and Lengths.FieldsLength carry no contract of their own. They are the reference definitions, and the lemmas named in their rows state what they mean.

## Findings

| source | as written | input that shows it | evidently intended | confidence | as-written member | corrected member |
|---|---|---|---|---|---|---|
| gen.py:105-115 | the 16- and 32-bit reads index from `data` and advance `data`, while one-byte reads and nested decoders use the cursor `p` | header `uint16_t version; uint8_t flags; uint8_t payload[2];` on `01 00 FF 0A 0B`, little-endian: flags is read from byte 0 and payload from bytes 1 and 2 | every read starts at `p` and advances `p`, so flags is 255 and payload is 10, 11 | not executed | AsWritten.HeaderMisread | Decoder.DecodeStruct |
| gen.py:64-70 | the decoder returns `p-data`, but wide reads move `data` instead of `p` | a composite holding one `uint16_t` and any buffer of 2 or more bytes: the return value is -2 | the return value is the bytes consumed, `len_X` | not executed | AsWritten.WideFieldReturnsNegative | RoundTrip.DecodeStructOfEncode |
| gen.py:86-97 | the fourth test repeats `uint32_t`, so a `uint64_t` field falls to the composite case and calls an undefined `unmarshal_uint64_t` | any composite with a `uint64_t` field; the length calculator counts 8 bytes for it (gen.py:40-41) | an 8-byte read under the byte order | not executed | AsWritten.Uint64NotDecoded | Decoder.ReadPrimAgrees |

=== FILE: as_written.dfy ===
/**
 Places where the decoders the generator prints do not do what the rest of
 the generated code (the length constants, the upfront check) evidently
 intends. Each is modelled here as written, with an input that exhibits the
 discrepancy; the rest of the model uses the corrected behaviour in the
 Decoder module.
 */
module AsWritten {
  import opened ByteOrder
  import opened Schema
  import opened Lengths
  import opened Values
  import opened Decoder
  import opened Positions

  // ---------------------------------------------------------------------
  // The decoder's dispatch on type names has no 64-bit case.
  // ---------------------------------------------------------------------

  /**
   The primitive the decoder generator recognises for a type name. Its
   fourth test repeats the `uint32_t` test instead of testing `uint64_t`, so a
   `uint64_t` field falls through to the composite case.
   */
  function DecoderPrimOf(typeName: string): (r: Option<PrimKind>)
    ensures typeName == "uint64_t" ==> r == None
    ensures typeName != "uint64_t" ==> r == PrimOf(typeName)
  {
    if typeName in {"uint8_t", "int8_t", "char"} then Some(U8)
    else if typeName == "uint16_t" then Some(U16)
    else if typeName == "uint32_t" then Some(U32)
    else if typeName == "uint32_t" then Some(U32)
    else None
  }

  /**
   The two generators disagree on `uint64_t`: the length calculator counts 8
   bytes, while the decoder emits a call to `unmarshal_uint64_t`, which no
   generator defines. They agree on every other name. This restates the
   contract of `DecoderPrimOf` next to the length calculator's width, as the
   summary of that finding.
   */
  lemma Uint64NotDecoded(typeName: string)
    ensures PrimOf("uint64_t") == Some(U64) && Width(U64) == 8
    ensures DecoderPrimOf("uint64_t") == None
    ensures typeName != "uint64_t" ==> DecoderPrimOf(typeName) == PrimOf(typeName)
  {
  }

  // ---------------------------------------------------------------------
  // The 16- and 32-bit reads use `data` where the cursor `p` was meant.
  // ---------------------------------------------------------------------

  /** The emitted decoder's two pointers, as offsets from where `data` pointed on entry. */
  datatype Pointers = Pointers(p: nat, data: nat)

  /** What a call of the emitted decoder produces: its return value and the integers stored, in order. */
  datatype CallResult = CallResult(ret: int, stored: seq<nat>)

  /** A composite whose fields are 8-, 16- or 32-bit primitives or one-level arrays of them. */
  predicate FlatType(ty: TypeRef)
  {
    match ty
    case Prim(k) => k != U64
    case Arr(el, _) => el.Prim? && el.kind != U64
    case Comp(_) => false
  }

  predicate Flat(fs: seq<Field>)
  {
    forall k :: 0 <= k < |fs| ==> FlatType(fs[k].ty)
  }

  /** The read statements emitted for one flat field, an array loop unrolled. */
  function FieldReads(ty: TypeRef): seq<PrimKind>
    requires FlatType(ty)
  {
    match ty
    case Prim(k) => [k]
    case Arr(el, d) => seq(d, _ => el.kind)
    case Comp(_) => []
  }

  /** The read statements emitted for a flat field list, in declaration order. */
  function Reads(fs: seq<Field>): seq<PrimKind>
    requires Flat(fs)
  {
    if |fs| == 0 then [] else FieldReads(fs[0].ty) + Reads(fs[1..])
  }

  /** The integers stored so far and where the two pointers stand. */
  datatype Run = Run(stored: seq<nat>, at: Pointers)

  /** The next read stays inside the buffer; a 64-bit read is never emitted. */
  predicate InBounds(k: PrimKind, buf: seq<Byte>, at: Pointers)
  {
    match k
    case U8 => at.p < |buf|
    case U16 => at.data + 2 <= |buf|
    case U32 => at.data + 4 <= |buf|
    case U64 => false
  }

  /** One emitted read: `*p++` for a byte, the shift-and-or expression on `data[0..]` for wider fields. */
  function ReadAt(k: PrimKind, buf: seq<Byte>, e: Endian, at: Pointers): nat
    requires InBounds(k, buf, at)
  {
    match k
    case U8 => buf[at.p]
    case U16 => EmittedRead16(buf[at.data..], e)
    case U32 => EmittedRead32(buf[at.data..], e)
  }

  /** The pointer updates after a read: `p++` for a byte, `data += w` for wider fields. */
  function Advance(k: PrimKind, at: Pointers): Pointers
  {
    if k == U8 then Pointers(at.p + 1, at.data) else Pointers(at.p, at.data + Width(k))
  }

  /** How far the reads `ks` move `p`: one byte per one-byte read. */
  function ByteReads(ks: seq<PrimKind>): (n: nat)
    ensures n <= |ks|
  {
    if |ks| == 0 then 0 else (if ks[0] == U8 then 1 else 0) + ByteReads(ks[1..])
  }

  /** Every read in `ks` is a one-byte read. */
  predicate OnlyByteReads(ks: seq<PrimKind>)
  {
    forall i :: 0 <= i < |ks| ==> ks[i] == U8
  }

  /** How far the reads `ks` move `data`: the width of every wider read. It is 0 exactly when all reads are one-byte reads. */
  function WideBytes(ks: seq<PrimKind>): (n: nat)
    ensures n == 0 <==> OnlyByteReads(ks)
  {
    if |ks| == 0 then 0
    else
      assert forall i :: 1 <= i < |ks| ==> ks[i] == ks[1..][i - 1];
      (if ks[0] == U8 then 0 else Width(ks[0])) + WideBytes(ks[1..])
  }

  /** No 64-bit read among `ks`; the decoder as written never emits one. */
  predicate NoU64Reads(ks: seq<PrimKind>)
  {
    forall i :: 0 <= i < |ks| ==> ks[i] != U64
  }

  /** Neither pointer passes the end of the buffer while running `ks`. */
  predicate PointersStayIn(ks: seq<PrimKind>, buf: seq<Byte>, at: Pointers)
  {
    at.p + ByteReads(ks) <= |buf| && at.data + WideBytes(ks) <= |buf|
  }

  /**
   Runs the emitted read statements in order. A read outside the buffer,
   undefined in C, gives `None`. When neither pointer can pass the end of the
   buffer, every read happens: one value is stored per read, `p` ends
   `ByteReads` past its start and `data` ends `WideBytes` past its start.
   */
  function RunReads(ks: seq<PrimKind>, buf: seq<Byte>, e: Endian, at: Pointers): (r: Option<Run>)
    ensures NoU64Reads(ks) && PointersStayIn(ks, buf, at) ==> r.Some?
    ensures r.Some? ==> |r.value.stored| == |ks| && r.value.at == Pointers(at.p + ByteReads(ks), at.data + WideBytes(ks))
  {
    if |ks| == 0 then Some(Run([], at))
    else if !InBounds(ks[0], buf, at) then None
    else
      var rest := RunReads(ks[1..], buf, e, Advance(ks[0], at));
      if rest.None? then None
      else Some(Run([ReadAt(ks[0], buf, e, at)] + rest.value.stored, rest.value.at))
  }

  /** Counting reads distributes over running one list of reads after another. */
  lemma {:induction false} CountsAppend(a: seq<PrimKind>, b: seq<PrimKind>)
    ensures ByteReads(a + b) == ByteReads(a) + ByteReads(b)
    ensures WideBytes(a + b) == WideBytes(a) + WideBytes(b)
    ensures NoU64Reads(a) && NoU64Reads(b) ==> NoU64Reads(a + b)
  {
    if |a| == 0 {
      assert a + b == b;
    } else {
      assert (a + b)[0] == a[0] && (a + b)[1..] == a[1..] + b;
      CountsAppend(a[1..], b);
    }
  }

  /** The unrolled loop over an array of `d` primitives of kind `k`. */
  lemma {:induction false} RepeatCounts(k: PrimKind, d: nat)
    ensures ByteReads(seq(d, _ => k)) == (if k == U8 then d else 0)
    ensures WideBytes(seq(d, _ => k)) == (if k == U8 then 0 else d * Width(k))
  {
    if d > 0 {
      assert seq(d, _ => k)[1..] == seq(d - 1, _ => k);
      RepeatCounts(k, d - 1);
    }
  }

  /** The reads of one flat field contain no 64-bit read and advance the pointers by the field's length. */
  lemma FieldReadsCover(reg: Registry, ty: TypeRef)
    requires WellFormed(reg) && RefBound(ty) <= |reg.decls| && FlatType(ty)
    ensures NoU64Reads(FieldReads(ty))
    ensures ByteReads(FieldReads(ty)) + WideBytes(FieldReads(ty)) == Length(reg, ty)
  {
    match ty
    case Prim(k) =>
      assert [k][1..] == [];
    case Arr(el, d) =>
      RepeatCounts(el.kind, d);
  }

  /**
   The read statements of a flat field list contain no 64-bit read, and the
   two pointers together advance by exactly the list's wire length.
   */
  lemma {:induction false} ReadsCoverFields(reg: Registry, fs: seq<Field>)
    requires WellFormed(reg) && FieldsRefBound(fs) <= |reg.decls| && Flat(fs)
    ensures NoU64Reads(Reads(fs))
    ensures ByteReads(Reads(fs)) + WideBytes(Reads(fs)) == FieldsLength(reg, fs)
  {
    if |fs| > 0 {
      assert Flat(fs[1..]) by {
        assert forall k :: 1 <= k < |fs| ==> fs[k] == fs[1..][k - 1];
      }
      ReadsCoverFields(reg, fs[1..]);
      FieldReadsCover(reg, fs[0].ty);
      CountsAppend(FieldReads(fs[0].ty), Reads(fs[1..]));
    }
  }

  /** One read statement followed by the rest. */
  lemma RunStep(ks: seq<PrimKind>, buf: seq<Byte>, e: Endian, at: Pointers, rest: Run, stored: seq<nat>)
    requires 0 < |ks| && InBounds(ks[0], buf, at) && RunReads(ks[1..], buf, e, Advance(ks[0], at)) == Some(rest)
    requires stored == [ReadAt(ks[0], buf, e, at)] + rest.stored
    ensures RunReads(ks, buf, e, at) == Some(Run(stored, rest.at))
  {
  }

  /**
   The emitted `unmarshal_X` as written, for a flat composite: the upfront
   check, the reads, `return (p-data)`. Past the check every read stays inside
   the buffer and one value is stored per read, but the return value is the
   number of one-byte reads minus the bytes of the wider reads. It equals
   `len_X` exactly when the decoder performs no 2- or 4-byte read.
   */
  function UnmarshalAsWritten(reg: Registry, j: nat, buf: seq<Byte>, e: Endian): (r: Option<CallResult>)
    requires WellFormed(reg) && j < |reg.decls| && Flat(reg.decls[j].fields)
    ensures |buf| < Length(reg, Comp(j)) ==> r == Some(CallResult(-1, []))
    ensures Length(reg, Comp(j)) <= |buf| ==> r.Some? && |r.value.stored| == |Reads(reg.decls[j].fields)|
    ensures Length(reg, Comp(j)) <= |buf| ==> r.Some? && r.value.ret == ByteReads(Reads(reg.decls[j].fields)) - WideBytes(Reads(reg.decls[j].fields))
    ensures Length(reg, Comp(j)) <= |buf| ==> r.Some? && (r.value.ret == Length(reg, Comp(j)) <==> OnlyByteReads(Reads(reg.decls[j].fields)))
  {
    if |buf| < Length(reg, Comp(j)) then Some(CallResult(-1, []))
    else
      ReadsCoverFields(reg, reg.decls[j].fields);
      var run := RunReads(Reads(reg.decls[j].fields), buf, e, Pointers(0, 0));
      if run.None? then None
      else Some(CallResult(run.value.at.p - run.value.at.data, run.value.stored))
  }

  /** A five-byte header: `uint16_t version; uint8_t flags; uint8_t payload[2];`. */
  function HeaderRegistry(): (reg: Registry)
    ensures WellFormed(reg) && |reg.decls| == 1
  {
    Registry([CompositeDecl("Header", [
      Field("version", Prim(U16)), Field("flags", Prim(U8)), Field("payload", Arr(Prim(U8), 2))])])
  }

  /**
   On the header above and bytes `01 00 FF 0A 0B`, the decoder as written reads
   `flags` from byte 0 instead of byte 2, fills `payload` from bytes 1 and 2,
   and returns 1 instead of the header's length 5 (compare `HeaderDecodes`).
   */
  lemma HeaderMisread()
    ensures UnmarshalAsWritten(HeaderRegistry(), 0, [1, 0, 255, 10, 11], Little)
         == Some(CallResult(1, [1, 1, 0, 255]))
  {
    var buf: seq<Byte> := [1, 0, 255, 10, 11];
    var reg := HeaderRegistry();
    var fs := reg.decls[0].fields;
    assert fs[1..][1..][1..] == [];
    assert seq(2, _ => U8) == [U8, U8];
    var ks := [U16, U8, U8, U8];
    assert Reads(fs) == ks;
    var p := Pointers(3, 2);
    assert RunReads([], buf, Little, p) == Some(Run([], p));
    RunStep([U8], buf, Little, Pointers(2, 2), Run([], p), [255]);
    RunStep([U8, U8], buf, Little, Pointers(1, 2), Run([255], p), [0, 255]);
    RunStep([U8, U8, U8], buf, Little, Pointers(0, 2), Run([0, 255], p), [1, 0, 255]);
    assert EmittedRead16(buf[0..], Little) == 1;
    RunStep(ks, buf, Little, Pointers(0, 0), Run([1, 0, 255], p), [1, 1, 0, 255]);
  }

  /** The corrected decoder on that header. */
  lemma HeaderDecodes()
    ensures DecodeStruct(HeaderRegistry(), 0, [1, 0, 255, 10, 11], Little)
         == Ok(Record([UInt(1), UInt(255), Items([UInt(10), UInt(11)])]), 5)
  {
    var buf: seq<Byte> := [1, 0, 255, 10, 11];
    var reg := HeaderRegistry();
    var fs := reg.decls[0].fields;
    var fields := DecodeFields(reg, fs, buf, Little);
    assert FieldsLength(reg, fs[1..][1..][1..]) == 0;
    assert FieldsLength(reg, fs[1..][1..]) == 2;
    assert FieldsLength(reg, fs[1..]) == 3;
    assert FieldsLength(reg, fs) == 5;
    FieldAt(reg, fs, buf, Little, 0);
    FieldAt(reg, fs, buf, Little, 1);
    FieldAt(reg, fs, buf, Little, 2);
    assert FieldOffset(reg, fs, 1) == 2;
    assert FieldOffset(reg, fs, 2) == 3;
    assert ReadPrim(U16, buf, Little) == 1 by {
      ReadPrimIsEmitted(buf, Little);
    }
    var payload := DecodeItems(reg, Prim(U8), 2, buf[3..], Little);
    SlotAt(reg, Prim(U8), 2, buf[3..], Little, 0);
    SlotAt(reg, Prim(U8), 2, buf[3..], Little, 1);
    assert payload.value == [UInt(10), UInt(11)];
    assert fields.value == [UInt(1), UInt(255), Items([UInt(10), UInt(11)])];
    assert DecodeStruct(reg, 0, buf, Little) == Ok(Record(fields.value), 5);
  }

  /**
   A composite whose only field is a `uint16_t` makes the decoder as written
   return -2 on every buffer long enough to hold it, instead of its length 2.
   */
  lemma WideFieldReturnsNegative(buf: seq<Byte>, e: Endian)
    requires 2 <= |buf|
    ensures UnmarshalAsWritten(Registry([CompositeDecl("Word", [Field("w", Prim(U16))])]), 0, buf, e)
         == Some(CallResult(-2, [EmittedRead16(buf, e)]))
    ensures DecodeStruct(Registry([CompositeDecl("Word", [Field("w", Prim(U16))])]), 0, buf, e).consumed == 2
  {
    var reg := Registry([CompositeDecl("Word", [Field("w", Prim(U16))])]);
    assert Reads(reg.decls[0].fields) == [U16];
    assert [U16][1..] == [];
    assert buf[0..] == buf;
    assert RunReads([], buf, e, Pointers(0, 2)) == Some(Run([], Pointers(0, 2)));
    RunStep([U16], buf, e, Pointers(0, 0), Run([], Pointers(0, 2)), [EmittedRead16(buf, e)]);
    assert RunReads([U16], buf, e, Pointers(0, 0)) == Some(Run([EmittedRead16(buf, e)], Pointers(0, 2)));
  }
}

=== FILE: byte_order.dfy ===
/**
 The byte-order policy shared by every generated decoder: how a run of bytes
 read from the wire becomes an unsigned integer, under little- or big-endian
 order, together with the inverse writer used to state round trips.
 */
module ByteOrder {

  /** One octet of the wire buffer. */
  type Byte = b: nat | b < 256

  /** The one byte-order setting of a generation run. */
  datatype Endian = Little | Big

  /** 256 to the power `w`: one more than the largest `w`-byte value. */
  function Pow256(w: nat): nat
  {
    if w == 0 then 1 else 256 * Pow256(w - 1)
  }

  /** Value of `bs` with the first byte least significant. */
  function LittleValue(bs: seq<Byte>): nat
  {
    if |bs| == 0 then 0 else bs[0] + 256 * LittleValue(bs[1..])
  }

  /** Value of `bs` with the first byte most significant. */
  function BigValue(bs: seq<Byte>): nat
  {
    if |bs| == 0 then 0 else 256 * BigValue(bs[..|bs| - 1]) + bs[|bs| - 1]
  }

  /** The unsigned integer a width-|bs| read yields under byte order `e`. */
  function ReadUInt(bs: seq<Byte>, e: Endian): nat
  {
    match e
    case Little => LittleValue(bs)
    case Big => BigValue(bs)
  }

  function Reverse<T>(s: seq<T>): (r: seq<T>)
    ensures |r| == |s|
    ensures forall i :: 0 <= i < |s| ==> r[i] == s[|s| - 1 - i]
  {
    if |s| == 0 then [] else [s[|s| - 1]] + Reverse(s[..|s| - 1])
  }

  lemma ReverseReverse<T>(s: seq<T>)
    ensures Reverse(Reverse(s)) == s
  {
    var r := Reverse(Reverse(s));
    assert forall i :: 0 <= i < |s| ==> r[i] == s[i];
  }

  /** The `w` bytes of `v` modulo 256^w, least significant first. */
  function LittleBytes(v: nat, w: nat): (r: seq<Byte>)
    ensures |r| == w
  {
    if w == 0 then [] else [v % 256] + LittleBytes(v / 256, w - 1)
  }

  /** The `w`-byte wire form of `v` under byte order `e`. */
  function WriteUInt(v: nat, w: nat, e: Endian): (r: seq<Byte>)
    ensures |r| == w
  {
    match e
    case Little => LittleBytes(v, w)
    case Big => Reverse(LittleBytes(v, w))
  }

  /** Big-endian decoding of a byte run equals little-endian decoding of its reverse. */
  lemma {:induction false} BigIsReversedLittle(bs: seq<Byte>)
    ensures BigValue(bs) == LittleValue(Reverse(bs))
  {
    if |bs| > 0 {
      var init := bs[..|bs| - 1];
      BigIsReversedLittle(init);
      assert Reverse(bs)[1..] == Reverse(init);
    }
  }

  /** A little-endian width-w result is below 256^w. */
  lemma {:induction false} LittleValueBound(bs: seq<Byte>)
    ensures LittleValue(bs) < Pow256(|bs|)
  {
    if |bs| > 0 {
      LittleValueBound(bs[1..]);
    }
  }

  /** Whatever the byte order, a width-w result is below 256^w. */
  lemma ReadUIntBound(bs: seq<Byte>, e: Endian)
    ensures ReadUInt(bs, e) < Pow256(|bs|)
  {
    LittleValueBound(bs);
    BigIsReversedLittle(bs);
    LittleValueBound(Reverse(bs));
  }

  /** A one-byte read yields the byte itself under either byte order. */
  lemma SingleByteIgnoresOrder(b: Byte, e: Endian)
    ensures ReadUInt([b], e) == b
  {
    assert LittleValue([b]) == b + 256 * LittleValue([b][1..]);
    assert BigValue([b]) == 256 * BigValue([b][..0]) + b;
  }

  lemma {:induction false} LittleBytesInverse(v: nat, w: nat)
    requires v < Pow256(w)
    ensures LittleValue(LittleBytes(v, w)) == v
  {
    if w > 0 {
      LittleBytesInverse(v / 256, w - 1);
      assert LittleBytes(v, w)[1..] == LittleBytes(v / 256, w - 1);
    }
  }

  lemma {:induction false} LittleValueInverse(bs: seq<Byte>)
    ensures LittleBytes(LittleValue(bs), |bs|) == bs
  {
    if |bs| > 0 {
      var v := LittleValue(bs);
      assert v % 256 == bs[0] && v / 256 == LittleValue(bs[1..]);
      LittleValueInverse(bs[1..]);
    }
  }

  /** Writing a value that fits and reading it back under the same order yields the value. */
  lemma ReadOfWrite(v: nat, w: nat, e: Endian)
    requires v < Pow256(w)
    ensures ReadUInt(WriteUInt(v, w, e), e) == v
  {
    LittleBytesInverse(v, w);
    if e == Big {
      BigIsReversedLittle(Reverse(LittleBytes(v, w)));
      ReverseReverse(LittleBytes(v, w));
    }
  }

  /** Reading a byte run and writing the value back under the same order restores the run. */
  lemma WriteOfRead(bs: seq<Byte>, e: Endian)
    ensures WriteUInt(ReadUInt(bs, e), |bs|, e) == bs
  {
    match e
    case Little =>
      LittleValueInverse(bs);
    case Big =>
      BigIsReversedLittle(bs);
      LittleValueInverse(Reverse(bs));
      ReverseReverse(bs);
  }

  /**
   The 16-bit read the generator emits: `(d[0]<<0) | (d[1]<<8)` for little
   endian and `(d[1]<<0) | (d[0]<<8)` for big endian. A shift by k bits is a
   multiplication by 2^k, and the shifted bytes occupy disjoint bit lanes, so
   the `|` of the lanes is their sum. The result fits the `uint16_t` field
   it is stored in, so the assignment truncates nothing.
   */
  function EmittedRead16(d: seq<Byte>, e: Endian): (v: nat)
    requires |d| >= 2
    ensures v < 0x1_0000
  {
    match e
    case Little => d[0] as nat + d[1] as nat * 0x100
    case Big => d[1] as nat + d[0] as nat * 0x100
  }

  /**
   The 32-bit read the generator emits, in the same shift-and-or form. The
   result fits the `uint32_t` field it is stored in.
   */
  function EmittedRead32(d: seq<Byte>, e: Endian): (v: nat)
    requires |d| >= 4
    ensures v < 0x1_0000_0000
  {
    match e
    case Little =>
      d[0] as nat + d[1] as nat * 0x100 + d[2] as nat * 0x1_0000 + d[3] as nat * 0x100_0000
    case Big =>
      d[3] as nat + d[2] as nat * 0x100 + d[1] as nat * 0x1_0000 + d[0] as nat * 0x100_0000
  }

  /** The emitted 16-bit expression computes the general width-2 read. */
  lemma EmittedRead16Agrees(d: seq<Byte>, e: Endian)
    requires |d| >= 2
    ensures EmittedRead16(d, e) == ReadUInt(d[..2], e)
  {
    var s := d[..2];
    assert LittleValue(s[1..]) == s[1] + 256 * LittleValue(s[2..]);
    assert LittleValue(s) == s[0] + 256 * LittleValue(s[1..]);
    assert BigValue(s[..1]) == 256 * BigValue(s[..0]) + s[0];
    assert BigValue(s) == 256 * BigValue(s[..1]) + s[1];
  }

  /** The emitted 32-bit expression computes the general width-4 read. */
  lemma EmittedRead32Agrees(d: seq<Byte>, e: Endian)
    requires |d| >= 4
    ensures EmittedRead32(d, e) == ReadUInt(d[..4], e)
  {
    var s := d[..4];
    assert LittleValue(s[3..]) == s[3] + 256 * LittleValue(s[4..]);
    assert LittleValue(s[2..]) == s[2] + 256 * LittleValue(s[3..]);
    assert LittleValue(s[1..]) == s[1] + 256 * LittleValue(s[2..]);
    assert LittleValue(s) == s[0] + 256 * LittleValue(s[1..]);
    assert s[..2][..1] == s[..1] && s[..3][..2] == s[..2] && s[..3] == s[..|s| - 1];
    assert BigValue(s[..1]) == 256 * BigValue(s[..0]) + s[0];
    assert BigValue(s[..2]) == 256 * BigValue(s[..1]) + s[1];
    assert BigValue(s[..3]) == 256 * BigValue(s[..2]) + s[2];
    assert BigValue(s) == 256 * BigValue(s[..3]) + s[3];
  }
}

=== FILE: decoder.dfy ===
/**
 The `unmarshal_X` functions the generator is meant to emit: one upfront
 check of the available length against `len_X`, then every field read in
 declaration order with no further checks, arrays read slot by slot, nested
 composites handed to their own decoder, and the number of bytes consumed
 returned. Here every read is at the cursor `p` and a 64-bit read exists;
 the printed code reads wide fields at `data`, returns `p-data` and has no
 64-bit read, which the AsWritten module models. The available length `n` of
 the C code is the length of `buf`.
 */
module Decoder {
  import opened ByteOrder
  import opened Schema
  import opened Lengths
  import opened Values

  /** What a decoder returns: the C `-1` (`TooShort`), or the value read and the bytes consumed. */
  datatype Decoded<T> = TooShort | Ok(value: T, consumed: nat)

  /**
   Reads one primitive from the front of `bs`. A one-byte field is copied as
   it stands; wider fields are assembled under byte order `e`.
   */
  function ReadPrim(k: PrimKind, bs: seq<Byte>, e: Endian): (v: nat)
    requires Width(k) <= |bs|
    ensures v < Pow256(Width(k))
  {
    match k
    case U8 => bs[0]
    case _ =>
      ReadUIntBound(bs[..Width(k)], e);
      ReadUInt(bs[..Width(k)], e)
  }

  /**
   The decoder of composite `j`, `unmarshal_X` with every read at the cursor
   `p` and a 64-bit read added. It fails exactly when fewer than
   `len_X` bytes are available, before looking at any byte; otherwise it
   consumes exactly `len_X` bytes.
   */
  function DecodeStruct(reg: Registry, j: nat, buf: seq<Byte>, e: Endian): (r: Decoded<Value>)
    requires WellFormed(reg) && j < |reg.decls|
    ensures r.TooShort? <==> |buf| < Length(reg, Comp(j))
    ensures r.Ok? ==> r.consumed == Length(reg, Comp(j))
    decreases j + 1, 0, 0, 0
  {
    if |buf| < FieldsLength(reg, reg.decls[j].fields) then TooShort
    else
      var fields := DecodeFields(reg, reg.decls[j].fields, buf, e);
      Ok(Record(fields.value), fields.consumed)
  }

  /**
   The statements emitted for one field. They run unchecked, so they demand
   that the bytes are there; given that, they cannot fail. In particular a
   nested decoder's result, which the emitted code adds to the cursor without
   testing it for -1, is always the nested composite's length.
   */
  function DecodeType(reg: Registry, ty: TypeRef, buf: seq<Byte>, e: Endian): (r: Decoded<Value>)
    requires WellFormed(reg) && RefBound(ty) <= |reg.decls| && Length(reg, ty) <= |buf|
    ensures r.Ok? && r.consumed == Length(reg, ty)
    decreases RefBound(ty), TypeSize(ty), 0, 0
  {
    match ty
    case Prim(k) => Ok(UInt(ReadPrim(k, buf, e)), Width(k))
    case Comp(j) => DecodeStruct(reg, j, buf, e)
    case Arr(el, d) =>
      var items := DecodeItems(reg, el, d, buf, e);
      Ok(Items(items.value), items.consumed)
  }

  /** The `for (int i=0; i < dim; i++)` loop: `d` elements read one after another. */
  function DecodeItems(reg: Registry, el: TypeRef, d: nat, buf: seq<Byte>, e: Endian): (r: Decoded<seq<Value>>)
    requires WellFormed(reg) && RefBound(el) <= |reg.decls| && d * Length(reg, el) <= |buf|
    ensures r.Ok? && r.consumed == d * Length(reg, el) && |r.value| == d
    decreases RefBound(el), TypeSize(el), 1, d
  {
    if d == 0 then Ok([], 0)
    else
      var len := Length(reg, el);
      ProductUnfold(d, len);
      var first := DecodeType(reg, el, buf, e);
      var rest := DecodeItems(reg, el, d - 1, buf[first.consumed..], e);
      Ok([first.value] + rest.value, first.consumed + rest.consumed)
  }

  /** The fields' statements in declaration order, each starting where the previous one stopped. */
  function DecodeFields(reg: Registry, fs: seq<Field>, buf: seq<Byte>, e: Endian): (r: Decoded<seq<Value>>)
    requires WellFormed(reg) && FieldsRefBound(fs) <= |reg.decls| && FieldsLength(reg, fs) <= |buf|
    ensures r.Ok? && r.consumed == FieldsLength(reg, fs) && |r.value| == |fs|
    decreases FieldsRefBound(fs), FieldsSize(fs), 0, 0
  {
    if |fs| == 0 then Ok([], 0)
    else
      var first := DecodeType(reg, fs[0].ty, buf, e);
      var rest := DecodeFields(reg, fs[1..], buf[first.consumed..], e);
      Ok([first.value] + rest.value, first.consumed + rest.consumed)
  }

  // ---------------------------------------------------------------------
  // Primitive reads.
  // ---------------------------------------------------------------------

  /** A one-byte field is the byte itself under either byte order. */
  lemma OneByteFieldIgnoresOrder(bs: seq<Byte>)
    requires 1 <= |bs|
    ensures ReadPrim(U8, bs, Little) == ReadPrim(U8, bs, Big) == bs[0]
  {
  }

  /**
   Every primitive read is the general width-w read. For 2-, 4- and 8-byte
   fields this is how `ReadPrim` is defined; the content is the one-byte case,
   where copying the byte is the width-1 read under either byte order.
   */
  lemma ReadPrimAgrees(k: PrimKind, bs: seq<Byte>, e: Endian)
    requires Width(k) <= |bs|
    ensures ReadPrim(k, bs, e) == ReadUInt(bs[..Width(k)], e)
  {
    if k == U8 {
      assert bs[..1] == [bs[0]];
      SingleByteIgnoresOrder(bs[0], e);
    }
  }

  /** The 16- and 32-bit reads agree with the shift-and-or expressions the generator prints. */
  lemma ReadPrimIsEmitted(bs: seq<Byte>, e: Endian)
    requires 2 <= |bs|
    ensures ReadPrim(U16, bs, e) == EmittedRead16(bs, e)
    ensures 4 <= |bs| ==> ReadPrim(U32, bs, e) == EmittedRead32(bs, e)
  {
    EmittedRead16Agrees(bs, e);
    if 4 <= |bs| {
      EmittedRead32Agrees(bs, e);
    }
  }

  /** The first slot is read from the front of the bytes, the remaining `d - 1` from the bytes after it. */
  lemma ItemsUnfold(reg: Registry, el: TypeRef, d: nat, buf: seq<Byte>, e: Endian)
    requires WellFormed(reg) && RefBound(el) <= |reg.decls| && d * Length(reg, el) <= |buf| && 0 < d
    ensures Length(reg, el) <= |buf| && (d - 1) * Length(reg, el) <= |buf| - Length(reg, el)
    ensures DecodeItems(reg, el, d, buf, e).value
         == [DecodeType(reg, el, buf, e).value] + DecodeItems(reg, el, d - 1, buf[Length(reg, el)..], e).value
  {
    ProductUnfold(d, Length(reg, el));
  }

  /** The arithmetic behind `SlotAt`: slot `k` ends within the array. */
  lemma SlotArithmetic(k: nat, d: nat, len: nat)
    requires k < d
    ensures k * len + len <= d * len
  {
    var m := d - (k + 1);
    assert d * len == (k + 1) * len + m * len;
  }
}

=== FILE: lengths.dfy ===
/**
 The length calculator: the wire length of every type, and the meaning of
 the `const size_t len_X = 0 + ...;` definitions the generator emits, one
 per composite in declaration order.
 */
module Lengths {
  import opened Schema

  /** Wire length of a type: a primitive's width, `dim` copies of an array's element, a composite's fields. */
  function Length(reg: Registry, ty: TypeRef): nat
    requires WellFormed(reg) && RefBound(ty) <= |reg.decls|
    decreases RefBound(ty), TypeSize(ty)
  {
    match ty
    case Prim(k) => Width(k)
    case Comp(j) => FieldsLength(reg, reg.decls[j].fields)
    case Arr(e, d) => d * Length(reg, e)
  }

  /** Total wire length of a field list, in declaration order. */
  function FieldsLength(reg: Registry, fs: seq<Field>): nat
    requires WellFormed(reg) && FieldsRefBound(fs) <= |reg.decls|
    decreases FieldsRefBound(fs), FieldsSize(fs)
  {
    if |fs| == 0 then 0 else Length(reg, fs[0].ty) + FieldsLength(reg, fs[1..])
  }

  /** `d` copies of `len` bytes are one copy followed by `d - 1` more. */
  lemma ProductUnfold(d: nat, len: nat)
    requires 0 < d
    ensures d * len == len + (d - 1) * len
  {
    assert d * len == (1 + (d - 1)) * len;
  }

  /** Appending a field adds exactly that field's length. */
  lemma {:induction false} FieldsLengthAppend(reg: Registry, fs: seq<Field>, f: Field)
    requires WellFormed(reg) && FieldsRefBound(fs + [f]) <= |reg.decls|
    ensures FieldsRefBound(fs) <= |reg.decls| && RefBound(f.ty) <= |reg.decls|
    ensures FieldsLength(reg, fs + [f]) == FieldsLength(reg, fs) + Length(reg, f.ty)
  {
    FieldsRefBoundAtMost(fs + [f], |reg.decls|);
    FieldsRefBoundAtMost(fs, |reg.decls|);
    assert (fs + [f])[|fs|] == f;
    assert forall k :: 0 <= k < |fs| ==> (fs + [f])[k] == fs[k];
    if |fs| > 0 {
      assert (fs + [f])[1..] == fs[1..] + [f];
      FieldsRefBoundAtMost(fs[1..] + [f], |reg.decls|);
      FieldsLengthAppend(reg, fs[1..], f);
    }
  }

  // ---------------------------------------------------------------------
  // The emitted length definitions.
  // ---------------------------------------------------------------------

  /**
   The C expression emitted as the initialiser of `len_X`: a literal, a sum,
   `dim *(e)` for an array, or a reference to an earlier `len_Y`.
   */
  datatype LenExpr = Lit(n: nat) | Add(left: LenExpr, right: LenExpr) | Scale(dim: nat, body: LenExpr) | LenOf(index: nat)

  /** One more than the largest `len_Y` the expression refers to. */
  function ExprRefBound(x: LenExpr): nat
  {
    match x
    case Lit(_) => 0
    case Add(a, b) => Max(ExprRefBound(a), ExprRefBound(b))
    case Scale(_, b) => ExprRefBound(b)
    case LenOf(j) => j + 1
  }

  /** The `len_Y` constants an expression refers to, by registry index. */
  function ExprRefs(x: LenExpr): set<nat>
  {
    match x
    case Lit(_) => {}
    case Add(a, b) => ExprRefs(a) + ExprRefs(b)
    case Scale(_, b) => ExprRefs(b)
    case LenOf(j) => {j}
  }

  /** The value of an emitted expression, given the values of the earlier `len_Y` constants. */
  function Eval(x: LenExpr, table: seq<nat>): nat
    requires ExprRefBound(x) <= |table|
  {
    match x
    case Lit(n) => n
    case Add(a, b) => Eval(a, table) + Eval(b, table)
    case Scale(d, b) => d * Eval(b, table)
    case LenOf(j) => table[j]
  }

  /** The term one field contributes: `+1`, `+2`, `+4`, `+8`, `+len_Y`, or `+ dim *(0 ...)`. */
  function FieldTerm(ty: TypeRef): (x: LenExpr)
    ensures ExprRefs(x) == TypeRefs(ty)
    ensures ExprRefBound(x) == RefBound(ty)
  {
    match ty
    case Prim(k) => Lit(Width(k))
    case Comp(j) => LenOf(j)
    case Arr(e, d) => Scale(d, Add(Lit(0), FieldTerm(e)))
  }

  /** The whole initialiser: `0` followed by one term per field, left to right. */
  function EmitFields(fs: seq<Field>): (x: LenExpr)
    ensures forall j :: j in ExprRefs(x) <==> exists k :: 0 <= k < |fs| && j in TypeRefs(fs[k].ty)
    ensures ExprRefBound(x) == FieldsRefBound(fs)
  {
    if |fs| == 0 then Lit(0)
    else
      var init := fs[..|fs| - 1];
      var last := fs[|fs| - 1];
      assert fs == init + [last];
      assert forall k :: 0 <= k < |init| ==> init[k] == fs[k];
      FieldsRefBoundAtMost(fs, ExprRefBound(Add(EmitFields(init), FieldTerm(last.ty))));
      FieldsRefBoundAtMost(init, FieldsRefBound(fs));
      FieldsRefBoundAtMost(fs, FieldsRefBound(fs));
      FieldsRefBoundAtMost(init, ExprRefBound(EmitFields(init)));
      Add(EmitFields(init), FieldTerm(last.ty))
  }

  /** The table holds the right length for every composite below `bound`. */
  predicate TableAgrees(reg: Registry, table: seq<nat>, bound: nat)
    requires WellFormed(reg) && bound <= |table| && bound <= |reg.decls|
  {
    forall i :: 0 <= i < bound ==> table[i] == Length(reg, Comp(i))
  }

  lemma {:induction false} FieldTermMeansLength(reg: Registry, ty: TypeRef, table: seq<nat>)
    requires WellFormed(reg) && RefBound(ty) <= |reg.decls| && RefBound(ty) <= |table|
    requires TableAgrees(reg, table, RefBound(ty))
    ensures Eval(FieldTerm(ty), table) == Length(reg, ty)
  {
    match ty
    case Prim(_) =>
    case Comp(j) =>
    case Arr(e, d) =>
      FieldTermMeansLength(reg, e, table);
      assert Eval(Add(Lit(0), FieldTerm(e)), table) == Eval(FieldTerm(e), table);
  }

  lemma {:induction false} EmitFieldsMeansLength(reg: Registry, fs: seq<Field>, table: seq<nat>)
    requires WellFormed(reg) && FieldsRefBound(fs) <= |reg.decls| && FieldsRefBound(fs) <= |table|
    requires TableAgrees(reg, table, FieldsRefBound(fs))
    ensures Eval(EmitFields(fs), table) == FieldsLength(reg, fs)
  {
    if |fs| > 0 {
      var init := fs[..|fs| - 1];
      var last := fs[|fs| - 1];
      assert fs == init + [last];
      FieldsLengthAppend(reg, init, last);
      FieldsRefBoundAtMost(fs, FieldsRefBound(fs));
      FieldsRefBoundAtMost(init, FieldsRefBound(fs));
      EmitFieldsMeansLength(reg, init, table);
      FieldTermMeansLength(reg, last.ty, table);
    }
  }

  /**
   The emitted `len_X` for composite `j` evaluates to its length, once the
   constants of all earlier composites hold theirs.
   */
  lemma EmittedLengthIsLength(reg: Registry, j: nat, table: seq<nat>)
    requires WellFormed(reg) && j < |reg.decls| && j <= |table|
    requires TableAgrees(reg, table, j)
    ensures ExprRefBound(EmitFields(reg.decls[j].fields)) <= j
    ensures Eval(EmitFields(reg.decls[j].fields), table) == Length(reg, Comp(j))
  {
    EmitFieldsMeansLength(reg, reg.decls[j].fields, table);
  }

  /**
   Computes the `len_X` constants in declaration order, each from the
   emitted expression and the constants before it, as the C compiler does;
   every constant equals the composite's length.
   */
  method LengthTable(reg: Registry) returns (table: seq<nat>)
    requires WellFormed(reg)
    ensures |table| == |reg.decls|
    ensures forall j :: 0 <= j < |reg.decls| ==> table[j] == Length(reg, Comp(j))
  {
    table := [];
    while |table| < |reg.decls|
      invariant |table| <= |reg.decls|
      invariant TableAgrees(reg, table, |table|)
    {
      EmittedLengthIsLength(reg, |table|, table);
      table := table + [Eval(EmitFields(reg.decls[|table|].fields), table)];
    }
  }

  /** A composite without fields has length 0; an array of dimension 0 contributes 0 bytes. */
  lemma DegenerateLengths(reg: Registry, j: nat, e: TypeRef)
    requires WellFormed(reg) && j < |reg.decls| && |reg.decls[j].fields| == 0 && RefBound(e) <= |reg.decls|
    ensures Length(reg, Comp(j)) == 0
    ensures Length(reg, Arr(e, 0)) == 0
  {
  }
}

=== FILE: positions.dfy ===
/**
 Where each field and each array slot of a composite is read from: the
 emitted statements run one after another over a single cursor, so field
 `k` starts after the lengths of the fields before it and slot `k` after
 `k` element lengths.
 */
module Positions {
  import opened ByteOrder
  import opened Schema
  import opened Lengths
  import opened Values
  import opened Decoder

  /**
   Offset of field `k`: the lengths of the fields before it, so that field
   `k` and the fields after it fill the rest of the composite.
   */
  function FieldOffset(reg: Registry, fs: seq<Field>, k: nat): (off: nat)
    requires WellFormed(reg) && FieldsRefBound(fs) <= |reg.decls| && k < |fs|
    ensures FieldsRefBound(fs[k + 1..]) <= |reg.decls| && off + Length(reg, fs[k].ty) + FieldsLength(reg, fs[k + 1..]) == FieldsLength(reg, fs)
  {
    FieldsRefBoundAtMost(fs, |reg.decls|);
    FieldsRefBoundAtMost(fs[k + 1..], |reg.decls|);
    if k == 0 then 0
    else
      assert fs[1..][k..] == fs[k + 1..];
      Length(reg, fs[0].ty) + FieldOffset(reg, fs[1..], k - 1)
  }

  /** Field `k` is decoded from the bytes at its offset, as if decoded alone. */
  lemma {:induction false} FieldAt(reg: Registry, fs: seq<Field>, buf: seq<Byte>, e: Endian, k: nat)
    requires WellFormed(reg) && FieldsRefBound(fs) <= |reg.decls| && FieldsLength(reg, fs) <= |buf|
    requires k < |fs|
    ensures DecodeFields(reg, fs, buf, e).value[k]
         == DecodeType(reg, fs[k].ty, buf[FieldOffset(reg, fs, k)..], e).value
  {
    if k > 0 {
      var c := Length(reg, fs[0].ty);
      FieldAt(reg, fs[1..], buf[c..], e, k - 1);
      assert buf[c..][FieldOffset(reg, fs[1..], k - 1)..] == buf[FieldOffset(reg, fs, k)..];
    }
  }

  /**
   Inside a composite whose upfront check passed, a field of composite type
   `Comp(i)` hands its decoder at least `len_i` bytes, so that decoder never
   returns -1 and always reports `len_i` bytes consumed.
   */
  lemma NestedDecoderSucceeds(reg: Registry, j: nat, buf: seq<Byte>, e: Endian, k: nat)
    requires WellFormed(reg) && j < |reg.decls| && Length(reg, Comp(j)) <= |buf|
    requires k < |reg.decls[j].fields| && reg.decls[j].fields[k].ty.Comp?
    ensures DecodeStruct(reg, reg.decls[j].fields[k].ty.index, buf[FieldOffset(reg, reg.decls[j].fields, k)..], e)
         == Ok(DecodeStruct(reg, j, buf, e).value.fields[k], Length(reg, reg.decls[j].fields[k].ty))
  {
    FieldAt(reg, reg.decls[j].fields, buf, e, k);
  }

  /** Where slot `k` starts: `k` element lengths in. */
  function SlotStart(k: nat, len: nat): (off: nat)
    ensures off == k * len
  {
    if k == 0 then 0 else SlotStart(k - 1, len) + len
  }

  /** Slot `k` of an array is decoded from the `k`-th element-sized run of bytes. */
  lemma {:induction false} SlotAt(reg: Registry, el: TypeRef, d: nat, buf: seq<Byte>, e: Endian, k: nat)
    requires WellFormed(reg) && RefBound(el) <= |reg.decls| && d * Length(reg, el) <= |buf|
    requires k < d
    ensures SlotStart(k, Length(reg, el)) + Length(reg, el) <= |buf|
    ensures DecodeItems(reg, el, d, buf, e).value[k]
         == DecodeType(reg, el, buf[SlotStart(k, Length(reg, el))..], e).value
  {
    var len := Length(reg, el);
    SlotArithmetic(k, d, len);
    ItemsUnfold(reg, el, d, buf, e);
    if k > 0 {
      var rest := buf[len..];
      SlotAt(reg, el, d - 1, rest, e, k - 1);
      var off := SlotStart(k - 1, len);
      assert rest[off..] == buf[off + len..];
    }
  }
}

=== FILE: round_trip.dfy ===
/**
 How the decoders relate to the wire form: decoding what a conforming encoder
 wrote gives back the instance and consumes exactly its length, decoding
 yields an instance whose wire form is exactly the bytes consumed, and
 therefore bytes past a composite's length never influence its decoder.
 */
module RoundTrip {
  import opened ByteOrder
  import opened Schema
  import opened Lengths
  import opened Values
  import opened Decoder

  /** Decoding the wire form of `v`, followed by anything, yields `v` and consumes its length. */
  lemma {:induction false} DecodeOfEncode(reg: Registry, ty: TypeRef, v: Value, rest: seq<Byte>, e: Endian)
    requires WellFormed(reg) && RefBound(ty) <= |reg.decls| && WellTyped(reg, ty, v)
    ensures DecodeType(reg, ty, EncodeType(reg, ty, v, e) + rest, e) == Ok(v, Length(reg, ty))
    decreases RefBound(ty), TypeSize(ty), 0, 0
  {
    var buf := EncodeType(reg, ty, v, e) + rest;
    match ty
    case Prim(k) =>
      var w := WriteUInt(v.n, Width(k), e);
      assert buf[..Width(k)] == w;
      ReadPrimAgrees(k, buf, e);
      ReadOfWrite(v.n, Width(k), e);
    case Comp(j) =>
      DecodeOfEncodeFields(reg, reg.decls[j].fields, v.fields, rest, e);
    case Arr(el, d) =>
      DecodeOfEncodeItems(reg, el, v.elems, rest, e);
  }

  lemma {:induction false} DecodeOfEncodeFields(reg: Registry, fs: seq<Field>, vs: seq<Value>, rest: seq<Byte>, e: Endian)
    requires WellFormed(reg) && FieldsRefBound(fs) <= |reg.decls| && FieldsWellTyped(reg, fs, vs)
    ensures DecodeFields(reg, fs, EncodeFields(reg, fs, vs, e) + rest, e) == Ok(vs, FieldsLength(reg, fs))
    decreases FieldsRefBound(fs), FieldsSize(fs), 0, 0
  {
    if |fs| > 0 {
      var a := EncodeType(reg, fs[0].ty, vs[0], e);
      var b := EncodeFields(reg, fs[1..], vs[1..], e);
      assert a + b + rest == a + (b + rest);
      DecodeOfEncode(reg, fs[0].ty, vs[0], b + rest, e);
      assert (a + (b + rest))[|a|..] == b + rest;
      DecodeOfEncodeFields(reg, fs[1..], vs[1..], rest, e);
      assert [vs[0]] + vs[1..] == vs;
    }
  }

  lemma {:induction false} DecodeOfEncodeItems(reg: Registry, el: TypeRef, vs: seq<Value>, rest: seq<Byte>, e: Endian)
    requires WellFormed(reg) && RefBound(el) <= |reg.decls| && ItemsWellTyped(reg, el, vs)
    ensures DecodeItems(reg, el, |vs|, EncodeItems(reg, el, vs, e) + rest, e) == Ok(vs, |vs| * Length(reg, el))
    decreases RefBound(el), TypeSize(el), 1, |vs|
  {
    if |vs| > 0 {
      var a := EncodeType(reg, el, vs[0], e);
      var b := EncodeItems(reg, el, vs[1..], e);
      var buf := a + (b + rest);
      assert EncodeItems(reg, el, vs, e) + rest == buf;
      DecodeOfEncode(reg, el, vs[0], b + rest, e);
      assert buf[|a|..] == b + rest;
      DecodeOfEncodeItems(reg, el, vs[1..], rest, e);
      ItemsUnfold(reg, el, |vs|, buf, e);
      assert DecodeItems(reg, el, |vs|, buf, e).value == [vs[0]] + vs[1..] == vs;
    }
  }

  /** What a decoder yields is an instance of its type, and its wire form is exactly the bytes consumed. */
  lemma {:induction false} EncodeOfDecode(reg: Registry, ty: TypeRef, buf: seq<Byte>, e: Endian)
    requires WellFormed(reg) && RefBound(ty) <= |reg.decls| && Length(reg, ty) <= |buf|
    ensures WellTyped(reg, ty, DecodeType(reg, ty, buf, e).value)
    ensures EncodeType(reg, ty, DecodeType(reg, ty, buf, e).value, e) == buf[..Length(reg, ty)]
    decreases RefBound(ty), TypeSize(ty), 0, 0
  {
    match ty
    case Prim(k) =>
      ReadPrimAgrees(k, buf, e);
      WriteOfRead(buf[..Width(k)], e);
    case Comp(j) =>
      EncodeOfDecodeFields(reg, reg.decls[j].fields, buf, e);
    case Arr(el, d) =>
      EncodeOfDecodeItems(reg, el, d, buf, e);
  }

  lemma {:induction false} EncodeOfDecodeFields(reg: Registry, fs: seq<Field>, buf: seq<Byte>, e: Endian)
    requires WellFormed(reg) && FieldsRefBound(fs) <= |reg.decls| && FieldsLength(reg, fs) <= |buf|
    ensures FieldsWellTyped(reg, fs, DecodeFields(reg, fs, buf, e).value)
    ensures EncodeFields(reg, fs, DecodeFields(reg, fs, buf, e).value, e) == buf[..FieldsLength(reg, fs)]
    decreases FieldsRefBound(fs), FieldsSize(fs), 0, 0
  {
    if |fs| > 0 {
      var c := Length(reg, fs[0].ty);
      var vs := DecodeFields(reg, fs, buf, e).value;
      EncodeOfDecode(reg, fs[0].ty, buf, e);
      EncodeOfDecodeFields(reg, fs[1..], buf[c..], e);
      assert vs[1..] == DecodeFields(reg, fs[1..], buf[c..], e).value;
      SplitPrefix(buf, c, FieldsLength(reg, fs[1..]));
    }
  }

  lemma {:induction false} EncodeOfDecodeItems(reg: Registry, el: TypeRef, d: nat, buf: seq<Byte>, e: Endian)
    requires WellFormed(reg) && RefBound(el) <= |reg.decls| && d * Length(reg, el) <= |buf|
    ensures ItemsWellTyped(reg, el, DecodeItems(reg, el, d, buf, e).value)
    ensures EncodeItems(reg, el, DecodeItems(reg, el, d, buf, e).value, e) == buf[..d * Length(reg, el)]
    decreases RefBound(el), TypeSize(el), 1, d
  {
    if d > 0 {
      var c := Length(reg, el);
      ProductUnfold(d, c);
      var m := (d - 1) * c;
      ItemsUnfold(reg, el, d, buf, e);
      var first := DecodeType(reg, el, buf, e).value;
      var rest := DecodeItems(reg, el, d - 1, buf[c..], e).value;
      var vs := DecodeItems(reg, el, d, buf, e).value;
      assert vs[0] == first && vs[1..] == rest;
      EncodeOfDecode(reg, el, buf, e);
      EncodeOfDecodeItems(reg, el, d - 1, buf[c..], e);
      SplitPrefix(buf, c, m);
    }
  }

  /** The first `c` bytes followed by the next `m` bytes are the first `c + m` bytes. */
  lemma SplitPrefix(buf: seq<Byte>, c: nat, m: nat)
    requires c + m <= |buf|
    ensures buf[..c] + buf[c..][..m] == buf[..c + m]
  {
  }

  /** Decoding a composite's wire form, whatever follows it, yields the instance and consumes `len_X` bytes. */
  lemma DecodeStructOfEncode(reg: Registry, j: nat, v: Value, rest: seq<Byte>, e: Endian)
    requires WellFormed(reg) && j < |reg.decls| && WellTyped(reg, Comp(j), v)
    ensures DecodeStruct(reg, j, EncodeType(reg, Comp(j), v, e) + rest, e) == Ok(v, Length(reg, Comp(j)))
  {
    DecodeOfEncode(reg, Comp(j), v, rest, e);
  }

  /** A successful decode of a composite yields an instance whose wire form is the consumed prefix. */
  lemma EncodeOfDecodeStruct(reg: Registry, j: nat, buf: seq<Byte>, e: Endian)
    requires WellFormed(reg) && j < |reg.decls| && DecodeStruct(reg, j, buf, e).Ok?
    ensures WellTyped(reg, Comp(j), DecodeStruct(reg, j, buf, e).value)
    ensures EncodeType(reg, Comp(j), DecodeStruct(reg, j, buf, e).value, e) == buf[..Length(reg, Comp(j))]
  {
    EncodeOfDecode(reg, Comp(j), buf, e);
  }

  /**
   A composite's decoder never reads past `len_X`: two buffers that agree on
   their first `len_X` bytes decode to the same result.
   */
  lemma DecodeIgnoresTrailingBytes(reg: Registry, j: nat, buf: seq<Byte>, other: seq<Byte>, e: Endian)
    requires WellFormed(reg) && j < |reg.decls|
    requires Length(reg, Comp(j)) <= |buf| && Length(reg, Comp(j)) <= |other|
    requires buf[..Length(reg, Comp(j))] == other[..Length(reg, Comp(j))]
    ensures DecodeStruct(reg, j, buf, e) == DecodeStruct(reg, j, other, e)
  {
    var len := Length(reg, Comp(j));
    EncodeOfDecode(reg, Comp(j), buf, e);
    var v := DecodeType(reg, Comp(j), buf, e).value;
    assert other == EncodeType(reg, Comp(j), v, e) + other[len..];
    DecodeOfEncode(reg, Comp(j), v, other[len..], e);
  }
}

=== FILE: schema.dfy ===
/**
 The type model of the generator: unsigned primitives, references to
 composites (typedef'd structs) and fixed-length arrays, and the registry of
 composites in declaration order. A composite may only refer to composites
 declared before it, as the emitted C requires (`len_X` and `unmarshal_X`
 must already be defined where they are used), which also rules out cycles.
 */
module Schema {

  /** The unsigned primitives the generator knows; `int8_t` and `char` are read as raw bytes. */
  datatype PrimKind = U8 | U16 | U32 | U64

  /** Wire width of a primitive, in bytes. */
  function Width(k: PrimKind): nat
  {
    match k
    case U8 => 1
    case U16 => 2
    case U32 => 4
    case U64 => 8
  }

  /** A resolved field type. `Comp(j)` names entry `j` of the registry. */
  datatype TypeRef = Prim(kind: PrimKind) | Comp(index: nat) | Arr(elem: TypeRef, dim: nat)

  datatype Field = Field(name: string, ty: TypeRef)

  datatype CompositeDecl = CompositeDecl(name: string, fields: seq<Field>)

  /** The composites of one header, in declaration order. */
  datatype Registry = Registry(decls: seq<CompositeDecl>)

  function Max(a: nat, b: nat): nat
  {
    if a < b then b else a
  }

  /** One more than the largest registry index `ty` mentions (0 when it mentions none). */
  function RefBound(ty: TypeRef): nat
  {
    match ty
    case Prim(_) => 0
    case Comp(j) => j + 1
    case Arr(e, _) => RefBound(e)
  }

  /** One more than the largest registry index any of `fs` mentions. */
  function FieldsRefBound(fs: seq<Field>): (b: nat)
    ensures forall k :: 0 <= k < |fs| ==> RefBound(fs[k].ty) <= b
  {
    if |fs| == 0 then 0 else Max(RefBound(fs[0].ty), FieldsRefBound(fs[1..]))
  }

  /** The registry indices `ty` mentions: its composite, inside any array declarators. */
  function TypeRefs(ty: TypeRef): set<nat>
  {
    match ty
    case Prim(_) => {}
    case Comp(j) => {j}
    case Arr(e, _) => TypeRefs(e)
  }

  /** Nesting depth of array constructors, used as a termination measure. */
  function TypeSize(ty: TypeRef): nat
  {
    match ty
    case Arr(e, _) => 1 + TypeSize(e)
    case _ => 1
  }

  /** A termination measure above the size of every field type of `fs`. */
  function FieldsSize(fs: seq<Field>): nat
  {
    if |fs| == 0 then 1 else 1 + TypeSize(fs[0].ty) + FieldsSize(fs[1..])
  }

  /** Every composite refers only to composites declared before it. */
  predicate WellFormed(reg: Registry)
  {
    forall i :: 0 <= i < |reg.decls| ==> FieldsRefBound(reg.decls[i].fields) <= i
  }

  /** The bound of a field list is the bound of each of its fields. */
  lemma {:induction false} FieldsRefBoundAtMost(fs: seq<Field>, b: nat)
    ensures FieldsRefBound(fs) <= b <==> forall k :: 0 <= k < |fs| ==> RefBound(fs[k].ty) <= b
  {
    if |fs| > 0 {
      FieldsRefBoundAtMost(fs[1..], b);
      assert forall k :: 1 <= k < |fs| ==> fs[k] == fs[1..][k - 1];
    }
  }

  // ---------------------------------------------------------------------
  // Declarations as the header states them, before names are resolved.
  // ---------------------------------------------------------------------

  datatype Option<T> = None | Some(value: T)

  /** A field type as written: a type name, or an array declarator around one. */
  datatype RawType = Named(typeName: string) | RawArray(elem: RawType, dim: nat)

  datatype RawField = RawField(name: string, ty: RawType)

  datatype RawDecl = RawDecl(name: string, fields: seq<RawField>)

  /** A field whose type name is neither a known primitive nor an earlier composite. */
  datatype ResolveError = UnknownType(composite: string, typeName: string)

  datatype Resolution<T> = Resolved(value: T) | Unresolved(error: ResolveError)

  /**
   The primitive a type name denotes; every other name is taken to be a
   composite. Both generators dispatch on the last word of the type's name.
   */
  function PrimOf(typeName: string): (r: Option<PrimKind>)
    ensures r == Some(U8) <==> typeName == "uint8_t" || typeName == "int8_t" || typeName == "char"
    ensures r == Some(U16) <==> typeName == "uint16_t"
    ensures r == Some(U32) <==> typeName == "uint32_t"
    ensures r == Some(U64) <==> typeName == "uint64_t"
  {
    if typeName in {"uint8_t", "int8_t", "char"} then Some(U8)
    else if typeName == "uint16_t" then Some(U16)
    else if typeName == "uint32_t" then Some(U32)
    else if typeName == "uint64_t" then Some(U64)
    else None
  }

  function Names(decls: seq<RawDecl>): (r: seq<string>)
    ensures |r| == |decls|
    ensures forall i :: 0 <= i < |decls| ==> r[i] == decls[i].name
  {
    if |decls| == 0 then [] else Names(decls[..|decls| - 1]) + [decls[|decls| - 1].name]
  }

  /** Position of the first declaration called `n`. */
  function IndexOf(names: seq<string>, n: string): (j: nat)
    requires n in names
    ensures j < |names| && names[j] == n
    ensures forall i :: 0 <= i < j ==> names[i] != n
  {
    if names[0] == n then 0 else 1 + IndexOf(names[1..], n)
  }

  /** Every type name inside `rt` is a primitive or one of the `known` composites. */
  predicate Resolvable(known: seq<string>, rt: RawType)
  {
    match rt
    case Named(n) => PrimOf(n).Some? || n in known
    case RawArray(e, _) => Resolvable(known, e)
  }

  /** `ty` is what `rt` means when the composites declared so far are `known`. */
  predicate Denotes(known: seq<string>, ty: TypeRef, rt: RawType)
  {
    match rt
    case Named(n) =>
      (match PrimOf(n)
       case Some(k) => ty == Prim(k)
       case None => ty.Comp? && ty.index < |known| && known[ty.index] == n)
    case RawArray(e, d) => ty.Arr? && ty.dim == d && Denotes(known, ty.elem, e)
  }

  /** The type name inside any array declarators. */
  function BaseName(rt: RawType): string
  {
    match rt
    case Named(n) => n
    case RawArray(e, _) => BaseName(e)
  }

  /** Field `k` is the first field of `fs` whose type does not resolve. */
  predicate FirstUnresolvableField(known: seq<string>, fs: seq<RawField>, k: nat)
  {
    && k < |fs|
    && !Resolvable(known, fs[k].ty)
    && forall k' :: 0 <= k' < k ==> Resolvable(known, fs[k'].ty)
  }

  /** Field `k` of declaration `i` is the first unresolvable field of the first unresolvable declaration. */
  predicate FirstUnresolvable(decls: seq<RawDecl>, i: nat, k: nat)
  {
    && i < |decls|
    && (forall i' :: 0 <= i' < i ==> DeclResolvable(decls, i'))
    && FirstUnresolvableField(Names(decls[..i]), decls[i].fields, k)
  }

  function ResolveType(composite: string, known: seq<string>, rt: RawType): (r: Resolution<TypeRef>)
    ensures r.Resolved? <==> Resolvable(known, rt)
    ensures r.Resolved? ==> Denotes(known, r.value, rt) && RefBound(r.value) <= |known|
    ensures r.Unresolved? ==> r.error == UnknownType(composite, BaseName(rt))
  {
    match rt
    case Named(n) =>
      (match PrimOf(n)
       case Some(k) => Resolved(Prim(k))
       case None => if n in known then Resolved(Comp(IndexOf(known, n))) else Unresolved(UnknownType(composite, n)))
    case RawArray(e, d) =>
      (match ResolveType(composite, known, e)
       case Unresolved(err) => Unresolved(err)
       case Resolved(t) => Resolved(Arr(t, d)))
  }

  function ResolveFields(composite: string, known: seq<string>, fs: seq<RawField>): (r: Resolution<seq<Field>>)
    ensures r.Resolved? <==> forall k :: 0 <= k < |fs| ==> Resolvable(known, fs[k].ty)
    ensures r.Resolved? ==> |r.value| == |fs| && FieldsRefBound(r.value) <= |known|
    ensures r.Resolved? ==> forall k :: 0 <= k < |fs| ==>
                        r.value[k].name == fs[k].name && Denotes(known, r.value[k].ty, fs[k].ty)
    ensures r.Unresolved? ==> exists k: nat :: FirstUnresolvableField(known, fs, k) && r.error == UnknownType(composite, BaseName(fs[k].ty))
  {
    if |fs| == 0 then Resolved([])
    else
      match ResolveType(composite, known, fs[0].ty)
      case Unresolved(err) =>
        assert FirstUnresolvableField(known, fs, 0);
        Unresolved(err)
      case Resolved(t) =>
        match ResolveFields(composite, known, fs[1..])
        case Unresolved(err) =>
          assert forall k :: 1 <= k < |fs| ==> fs[k] == fs[1..][k - 1];
          FirstFieldShift(composite, known, fs, err);
          Unresolved(err)
        case Resolved(rest) =>
          assert forall k :: 1 <= k < |fs| ==> fs[k] == fs[1..][k - 1];
          assert FieldsRefBound([Field(fs[0].name, t)] + rest) <= |known| by {
            assert ([Field(fs[0].name, t)] + rest)[1..] == rest;
          }
          Resolved([Field(fs[0].name, t)] + rest)
  }

  /** A first failing field after a resolvable first field is the first failing field of the whole list. */
  lemma FirstFieldShift(composite: string, known: seq<string>, fs: seq<RawField>, err: ResolveError)
    requires 0 < |fs| && Resolvable(known, fs[0].ty)
    requires exists k: nat :: FirstUnresolvableField(known, fs[1..], k) && err == UnknownType(composite, BaseName(fs[1..][k].ty))
    ensures exists k: nat :: FirstUnresolvableField(known, fs, k) && err == UnknownType(composite, BaseName(fs[k].ty))
  {
    var k: nat :| FirstUnresolvableField(known, fs[1..], k) && err == UnknownType(composite, BaseName(fs[1..][k].ty));
    assert forall k' :: 1 <= k' < |fs| ==> fs[k'] == fs[1..][k' - 1];
    assert FirstUnresolvableField(known, fs, k + 1);
  }

  /** Every field type of declaration `i` resolves against the declarations before it. */
  predicate DeclResolvable(decls: seq<RawDecl>, i: nat)
    requires i < |decls|
  {
    forall k :: 0 <= k < |decls[i].fields| ==> Resolvable(Names(decls[..i]), decls[i].fields[k].ty)
  }

  /** `c` is what declaration `i` means, given the declarations before it. */
  predicate DeclDenotes(decls: seq<RawDecl>, i: nat, c: CompositeDecl)
    requires i < |decls|
  {
    && c.name == decls[i].name
    && |c.fields| == |decls[i].fields|
    && forall k :: 0 <= k < |c.fields| ==>
         c.fields[k].name == decls[i].fields[k].name
         && Denotes(Names(decls[..i]), c.fields[k].ty, decls[i].fields[k].ty)
  }

  /** The first failing declaration of all but the last declaration is the first failing one of all. */
  lemma FirstDeclInPrefix(decls: seq<RawDecl>, init: seq<RawDecl>, err: ResolveError)
    requires 0 < |decls| && init == decls[..|decls| - 1]
    requires exists i: nat, k: nat :: FirstUnresolvable(init, i, k) && err == UnknownType(init[i].name, BaseName(init[i].fields[k].ty))
    ensures exists i: nat, k: nat :: FirstUnresolvable(decls, i, k) && err == UnknownType(decls[i].name, BaseName(decls[i].fields[k].ty))
    ensures !forall i :: 0 <= i < |decls| ==> DeclResolvable(decls, i)
  {
    var i: nat, k: nat :| FirstUnresolvable(init, i, k) && err == UnknownType(init[i].name, BaseName(init[i].fields[k].ty));
    assert forall i' :: 0 <= i' <= i ==> init[..i'] == decls[..i'];
    assert forall i' :: 0 <= i' < i ==> DeclResolvable(init, i') == DeclResolvable(decls, i');
    assert FirstUnresolvable(decls, i, k);
    assert !DeclResolvable(decls, i);
  }

  /** When every earlier declaration resolves, a failing field of the last one is the first failure. */
  lemma FirstDeclIsLast(decls: seq<RawDecl>, known: seq<string>, last: RawDecl, err: ResolveError)
    requires 0 < |decls| && known == Names(decls[..|decls| - 1]) && last == decls[|decls| - 1]
    requires forall i :: 0 <= i < |decls| - 1 ==> DeclResolvable(decls, i)
    requires exists k: nat :: FirstUnresolvableField(known, last.fields, k) && err == UnknownType(last.name, BaseName(last.fields[k].ty))
    ensures exists i: nat, k: nat :: FirstUnresolvable(decls, i, k) && err == UnknownType(decls[i].name, BaseName(decls[i].fields[k].ty))
    ensures !forall i :: 0 <= i < |decls| ==> DeclResolvable(decls, i)
  {
    var k: nat :| FirstUnresolvableField(known, last.fields, k) && err == UnknownType(last.name, BaseName(last.fields[k].ty));
    assert FirstUnresolvable(decls, |decls| - 1, k);
    assert !DeclResolvable(decls, |decls| - 1);
  }

  /** A declaration before the last resolves among all declarations exactly when it does among the others. */
  lemma PrefixResolvable(decls: seq<RawDecl>, init: seq<RawDecl>)
    requires 0 < |decls| && init == decls[..|decls| - 1]
    ensures forall i :: 0 <= i < |init| ==> DeclResolvable(init, i) == DeclResolvable(decls, i)
  {
    assert forall i :: 0 <= i < |init| ==> init[..i] == decls[..i];
  }

  /** When the others resolve and so does every field of the last declaration, all declarations resolve. */
  lemma LastResolvable(decls: seq<RawDecl>, init: seq<RawDecl>)
    requires 0 < |decls| && init == decls[..|decls| - 1]
    requires forall i :: 0 <= i < |init| ==> DeclResolvable(decls, i)
    requires forall k :: 0 <= k < |decls[|init|].fields| ==> Resolvable(Names(init), decls[|init|].fields[k].ty)
    ensures forall i :: 0 <= i < |decls| ==> DeclResolvable(decls, i)
  {
    assert decls[..|init|] == init;
  }

  /** Appending the resolved last declaration to the resolved registry of the others resolves them all. */
  lemma ExtendResolved(decls: seq<RawDecl>, init: seq<RawDecl>, prefix: Registry, fs: seq<Field>)
    requires 0 < |decls| && init == decls[..|decls| - 1]
    requires |prefix.decls| == |init| && WellFormed(prefix)
    requires forall i :: 0 <= i < |init| ==> DeclDenotes(init, i, prefix.decls[i])
    requires |fs| == |decls[|init|].fields| && FieldsRefBound(fs) <= |Names(init)|
    requires forall k :: 0 <= k < |fs| ==>
               fs[k].name == decls[|init|].fields[k].name && Denotes(Names(init), fs[k].ty, decls[|init|].fields[k].ty)
    ensures WellFormed(Registry(prefix.decls + [CompositeDecl(decls[|init|].name, fs)]))
    ensures forall i :: 0 <= i < |decls| ==> DeclDenotes(decls, i, (prefix.decls + [CompositeDecl(decls[|init|].name, fs)])[i])
  {
    var n := |init|;
    var ds := prefix.decls + [CompositeDecl(decls[n].name, fs)];
    ExtendWellFormed(prefix, CompositeDecl(decls[n].name, fs));
    forall i | 0 <= i < |decls|
      ensures DeclDenotes(decls, i, ds[i])
    {
      if i < n {
        assert ds[i] == prefix.decls[i] && init[i] == decls[i] && init[..i] == decls[..i];
        assert DeclDenotes(init, i, prefix.decls[i]);
      } else {
        assert decls[..n] == init;
      }
    }
  }

  /** A well-formed registry stays well formed when a composite using only its entries is appended. */
  lemma ExtendWellFormed(prefix: Registry, c: CompositeDecl)
    requires WellFormed(prefix) && FieldsRefBound(c.fields) <= |prefix.decls|
    ensures WellFormed(Registry(prefix.decls + [c]))
  {
    var ds := prefix.decls + [c];
    forall i | 0 <= i < |ds|
      ensures FieldsRefBound(ds[i].fields) <= i
    {
      if i < |prefix.decls| { assert ds[i] == prefix.decls[i]; }
    }
  }

  /**
   Builds the registry from the declarations in header order. It fails,
   naming the first offending field type, exactly when some field names a
   type that is neither a primitive nor a composite declared earlier; this
   covers unknown names, forward references and self-reference, so a
   resolved registry is acyclic.
   */
  function Resolve(decls: seq<RawDecl>): (r: Resolution<Registry>)
    ensures r.Resolved? <==> forall i :: 0 <= i < |decls| ==> DeclResolvable(decls, i)
    ensures r.Resolved? ==> |r.value.decls| == |decls| && WellFormed(r.value)
    ensures r.Resolved? ==> forall i :: 0 <= i < |decls| ==> DeclDenotes(decls, i, r.value.decls[i])
    ensures r.Unresolved? ==> exists i: nat, k: nat :: FirstUnresolvable(decls, i, k) && r.error == UnknownType(decls[i].name, BaseName(decls[i].fields[k].ty))
  {
    if |decls| == 0 then Resolved(Registry([]))
    else
      var n := |decls| - 1;
      var init := decls[..n];
      PrefixResolvable(decls, init);
      match Resolve(init)
      case Unresolved(err) =>
        FirstDeclInPrefix(decls, init, err);
        Unresolved(err)
      case Resolved(prefix) =>
        match ResolveFields(decls[n].name, Names(init), decls[n].fields)
        case Unresolved(err) =>
          FirstDeclIsLast(decls, Names(init), decls[n], err);
          Unresolved(err)
        case Resolved(fs) =>
          var reg := Registry(prefix.decls + [CompositeDecl(decls[n].name, fs)]);
          LastResolvable(decls, init);
          ExtendResolved(decls, init, prefix, fs);
          Resolved(reg)
  }
}

=== FILE: values.dfy ===
/**
 Decoded instances and their wire form. The generator only emits decoders;
 the writer here is the conforming encoder against which the decoders'
 round trips are stated.
 */
module Values {
  import opened ByteOrder
  import opened Schema
  import opened Lengths

  /** An in-memory instance: an unsigned integer, a composite's field values, or an array's slots. */
  datatype Value = UInt(n: nat) | Record(fields: seq<Value>) | Items(elems: seq<Value>)

  /** `v` is an instance of `ty`: shapes match and every integer fits its width. */
  predicate WellTyped(reg: Registry, ty: TypeRef, v: Value)
    requires WellFormed(reg) && RefBound(ty) <= |reg.decls|
    decreases RefBound(ty), TypeSize(ty), 0, 0
  {
    match ty
    case Prim(k) => v.UInt? && v.n < Pow256(Width(k))
    case Comp(j) => v.Record? && FieldsWellTyped(reg, reg.decls[j].fields, v.fields)
    case Arr(el, d) => v.Items? && |v.elems| == d && ItemsWellTyped(reg, el, v.elems)
  }

  /** One well-typed value per field, in declaration order. */
  predicate FieldsWellTyped(reg: Registry, fs: seq<Field>, vs: seq<Value>)
    requires WellFormed(reg) && FieldsRefBound(fs) <= |reg.decls|
    decreases FieldsRefBound(fs), FieldsSize(fs), 0, 0
  {
    |vs| == |fs| && (|fs| == 0 || (WellTyped(reg, fs[0].ty, vs[0]) && FieldsWellTyped(reg, fs[1..], vs[1..])))
  }

  /** Every slot holds a well-typed element. */
  predicate ItemsWellTyped(reg: Registry, el: TypeRef, vs: seq<Value>)
    requires WellFormed(reg) && RefBound(el) <= |reg.decls|
    decreases RefBound(el), TypeSize(el), 1, |vs|
  {
    |vs| == 0 || (WellTyped(reg, el, vs[0]) && ItemsWellTyped(reg, el, vs[1..]))
  }

  /** The wire form of `v`: fields and slots concatenated in order, integers under byte order `e`. */
  function EncodeType(reg: Registry, ty: TypeRef, v: Value, e: Endian): (r: seq<Byte>)
    requires WellFormed(reg) && RefBound(ty) <= |reg.decls| && WellTyped(reg, ty, v)
    ensures |r| == Length(reg, ty)
    decreases RefBound(ty), TypeSize(ty), 0, 0
  {
    match ty
    case Prim(k) => WriteUInt(v.n, Width(k), e)
    case Comp(j) => EncodeFields(reg, reg.decls[j].fields, v.fields, e)
    case Arr(el, d) => EncodeItems(reg, el, v.elems, e)
  }

  function EncodeFields(reg: Registry, fs: seq<Field>, vs: seq<Value>, e: Endian): (r: seq<Byte>)
    requires WellFormed(reg) && FieldsRefBound(fs) <= |reg.decls| && FieldsWellTyped(reg, fs, vs)
    ensures |r| == FieldsLength(reg, fs)
    decreases FieldsRefBound(fs), FieldsSize(fs), 0, 0
  {
    if |fs| == 0 then []
    else EncodeType(reg, fs[0].ty, vs[0], e) + EncodeFields(reg, fs[1..], vs[1..], e)
  }

  function EncodeItems(reg: Registry, el: TypeRef, vs: seq<Value>, e: Endian): (r: seq<Byte>)
    requires WellFormed(reg) && RefBound(el) <= |reg.decls| && ItemsWellTyped(reg, el, vs)
    ensures |r| == |vs| * Length(reg, el)
    decreases RefBound(el), TypeSize(el), 1, |vs|
  {
    if |vs| == 0 then []
    else
      var len := Length(reg, el);
      ProductUnfold(|vs|, len);
      EncodeType(reg, el, vs[0], e) + EncodeItems(reg, el, vs[1..], e)
  }
}

=== FILE: worked_examples.dfy ===
/**
 Worked schemas: byte order on a 4-byte field, an array of bytes, a nested
 composite, and name resolution with and without a forward reference.
 */
module Examples {
  import opened ByteOrder
  import opened Schema
  import opened Lengths
  import opened Values
  import opened Decoder
  import opened Positions

  /** Bytes `01 00 00 00` read as a 4-byte field: 1 little-endian, 16777216 big-endian. */
  lemma EndiannessExample()
    ensures ReadPrim(U32, [1, 0, 0, 0], Little) == 1
    ensures ReadPrim(U32, [1, 0, 0, 0], Big) == 16777216
  {
    ReadPrimIsEmitted([1, 0, 0, 0], Little);
    ReadPrimIsEmitted([1, 0, 0, 0], Big);
  }

  /** `S { uint8_t a[4]; }`. */
  function ArrayRegistry(): (reg: Registry)
    ensures WellFormed(reg) && |reg.decls| == 1
  {
    Registry([CompositeDecl("S", [Field("a", Arr(Prim(U8), 4))])])
  }

  /**
   `uint8_t a[4]` fills slot `k` with byte `k` under either byte order; on
   `AA BB CC DD` the slots are 170, 187, 204, 221.
   */
  lemma ArrayExample(buf: seq<Byte>, e: Endian)
    requires |buf| == 4
    ensures DecodeStruct(ArrayRegistry(), 0, buf, e)
         == Ok(Record([Items([UInt(buf[0]), UInt(buf[1]), UInt(buf[2]), UInt(buf[3])])]), 4)
    ensures buf == [0xAA, 0xBB, 0xCC, 0xDD] ==>
              DecodeStruct(ArrayRegistry(), 0, buf, e).value.fields[0].elems
              == [UInt(170), UInt(187), UInt(204), UInt(221)]
  {
    var reg := ArrayRegistry();
    var fs := reg.decls[0].fields;
    var slots := [UInt(buf[0]), UInt(buf[1]), UInt(buf[2]), UInt(buf[3])];
    assert FieldsLength(reg, fs[1..]) == 0;
    assert FieldsLength(reg, fs) == 4;
    ByteSlots(reg, buf, e, slots);
    FieldAt(reg, fs, buf, e, 0);
    assert buf[FieldOffset(reg, fs, 0)..] == buf;
    var fields := DecodeFields(reg, fs, buf, e);
    assert fields.value == [Items(slots)];
  }

  /** The four one-byte slots are the four bytes. */
  lemma ByteSlots(reg: Registry, buf: seq<Byte>, e: Endian, slots: seq<Value>)
    requires WellFormed(reg) && |buf| == 4 && |slots| == 4
    requires forall k :: 0 <= k < 4 ==> slots[k] == UInt(buf[k])
    ensures DecodeItems(reg, Prim(U8), 4, buf, e).value == slots
  {
    var items := DecodeItems(reg, Prim(U8), 4, buf, e).value;
    forall k | 0 <= k < 4
      ensures items[k] == slots[k]
    {
      SlotAt(reg, Prim(U8), 4, buf, e, k);
      assert SlotStart(k, 1) == k;
    }
  }

  /** `B { uint16_t x; }` and `A { B b; }`. */
  function NestedRegistry(): (reg: Registry)
    ensures WellFormed(reg) && |reg.decls| == 2
  {
    Registry([CompositeDecl("B", [Field("x", Prim(U16))]), CompositeDecl("A", [Field("b", Comp(0))])])
  }

  /** A and B both have length 2, and `34 12` little-endian gives `b.x == 0x1234` inside A. */
  lemma NestingExample()
    ensures Length(NestedRegistry(), Comp(1)) == Length(NestedRegistry(), Comp(0)) == 2
    ensures DecodeStruct(NestedRegistry(), 1, [0x34, 0x12], Little)
         == Ok(Record([Record([UInt(0x1234)])]), 2)
  {
    var reg := NestedRegistry();
    var buf: seq<Byte> := [0x34, 0x12];
    var fsB := reg.decls[0].fields;
    var fsA := reg.decls[1].fields;
    assert FieldsLength(reg, fsB[1..]) == 0 && FieldsLength(reg, fsB) == 2;
    assert FieldsLength(reg, fsA[1..]) == 0 && FieldsLength(reg, fsA) == 2;
    assert ReadPrim(U16, buf, Little) == 0x1234 by {
      assert buf[..2] == buf;
      assert LittleValue(buf) == 0x34 + 256 * LittleValue([0x12]);
      assert LittleValue([0x12]) == 0x12 + 256 * LittleValue([]);
    }
    FieldAt(reg, fsB, buf, Little, 0);
    assert buf[FieldOffset(reg, fsB, 0)..] == buf;
    assert DecodeFields(reg, fsB, buf, Little).value == [UInt(0x1234)];
    assert DecodeStruct(reg, 0, buf, Little) == Ok(Record([UInt(0x1234)]), 2);
    FieldAt(reg, fsA, buf, Little, 0);
    assert buf[FieldOffset(reg, fsA, 0)..] == buf;
    assert DecodeFields(reg, fsA, buf, Little).value == [Record([UInt(0x1234)])];
  }

  /** The declarations of `NestedRegistry` as a header states them resolve to it. */
  lemma ResolveExample()
    ensures Resolve([RawDecl("B", [RawField("x", Named("uint16_t"))]), RawDecl("A", [RawField("b", Named("B"))])])
         == Resolved(NestedRegistry())
  {
    var decls := [RawDecl("B", [RawField("x", Named("uint16_t"))]), RawDecl("A", [RawField("b", Named("B"))])];
    var fsB := decls[0].fields;
    var fsA := decls[1].fields;
    assert decls[..1] == [decls[0]] && decls[..1][..0] == [];
    assert Names(decls[..1][..0]) == [];
    assert Names(decls[..1]) == ["B"];
    assert fsB[1..] == [] && fsA[1..] == [];
    assert ResolveType("B", [], fsB[0].ty) == Resolved(Prim(U16));
    assert ResolveFields("B", [], fsB[1..]) == Resolved([]);
    assert [Field("x", Prim(U16))] + [] == [Field("x", Prim(U16))];
    assert ResolveFields("B", [], fsB) == Resolved([Field("x", Prim(U16))]);
    var first := decls[..1];
    assert first[0] == decls[0] && first[..0] == [];
    assert Resolve(first[..0]) == Resolved(Registry([]));
    assert [] + [CompositeDecl("B", [Field("x", Prim(U16))])] == [CompositeDecl("B", [Field("x", Prim(U16))])];
    assert Resolve(first) == Resolved(Registry([CompositeDecl("B", [Field("x", Prim(U16))])]));
    assert PrimOf("B") == None;
    assert IndexOf(["B"], "B") == 0;
    assert ResolveType("A", ["B"], fsA[0].ty) == Resolved(Comp(0));
    assert ResolveFields("A", ["B"], fsA[1..]) == Resolved([]);
    assert [Field("b", Comp(0))] + [] == [Field("b", Comp(0))];
    assert ResolveFields("A", ["B"], fsA) == Resolved([Field("b", Comp(0))]);
    assert [CompositeDecl("B", [Field("x", Prim(U16))])] + [CompositeDecl("A", [Field("b", Comp(0))])] == NestedRegistry().decls;
  }

  /** Declaring A before the B it contains is refused: B is not yet known where A uses it. */
  lemma ForwardReferenceRefused()
    ensures Resolve([RawDecl("A", [RawField("b", Named("B"))]), RawDecl("B", [RawField("x", Named("uint16_t"))])])
         == Unresolved(UnknownType("A", "B"))
  {
    var decls := [RawDecl("A", [RawField("b", Named("B"))]), RawDecl("B", [RawField("x", Named("uint16_t"))])];
    assert decls[..1][..0] == [];
    assert Names(decls[..1][..0]) == [];
  }
}
